=== FILE: README.md ===
# Paint editor core, modelled in Dafny

This project models the core of a browser paint application. The core is the state machine
under the DOM wiring of `script.js`. It covers:

- the undo/redo ledger (`drawingHistory`, `historyIndex`);
- the page store (`pages`, `currentPageIndex`);
- the collection of named drawings saved in local storage;
- the pointer-gesture and text-overlay handlers;
- the shape library, the stroke-style selection and the keyboard shortcuts.

The surface is described by what was drawn on it. A `Snapshot` (what `canvas.toDataURL()`
returns) is the list of marks painted since the last opaque full-surface fill. Capturing a
snapshot and restoring it are exact inverses. Filling the whole surface white yields the one
snapshot `White`.

Modules, one per component:

| file | module | what it holds |
|---|---|---|
| wrappers.dfy | `Wrappers` | `Option`, standing in for `null` |
| canvas.dfy | `Canvas` | points, pens, primitives, marks, snapshots, thumbnails |
| strings.dfy | `Strings` | `trim`, decimal rendering, `parseInt` of a pixel length |
| style.dfy | `Style` | tools, paint styles, `setLineStyle` as `LineStyle` |
| shapes.dfy | `Shapes` | the shape functions |
| keys.dfy | `Keys` | the keyboard bindings |
| history.dfy | `History` | the ledger as a value, and its laws |
| pages.dfy | `Pages` | the page store as a value, and its transitions |
| library.dfy | `Library` | the saved collection: lookup, save, and their laws |
| editor.dfy | `Editor` | class `Session`: the script's variables and handlers |

`Session` keeps the script's own variables as fields. Its methods update them step by step,
as the handlers do. Each method's postcondition ties the new state to the pure transition in
`History`, `Pages` or `Library`. Field-level `modifies` clauses say which variables each
handler may touch. The properties are proved as lemmas about those transitions.

Outside inputs are parameters:

- `confirm(...)`: a `confirmed: bool` parameter, the answer the user would give;
- `alert(...)`: a `notice: Option<string>` result carrying the message text;
- `Date.now()`: a `now: nat` parameter;
- pointer positions: surface-local `Point`s;
- the text typed into the overlay and the font controls: string parameters.

The stored collection is the field `saved`. The constructor receives it as found at start-up.

The model follows the code, including these behaviours:

- A shape gesture records the ledger at pointer-down as well as at pointer-up (script.js:219, 261).
- A new page appends its white snapshot to the existing ledger instead of resetting it (script.js:478).
- `loadPage` returns before storing anything when the index is out of range (script.js:488).
- A freehand stroke and a text label record the surface before they are painted (script.js:219, 437).
  Undo then steps back before restoring (script.js:550-552). From the first such edit on, redo never
  brings back the newest edit: one stroke on a fresh page, undo, redo leaves the page white. From
  the second such edit on, one undo removes the last two edits (see Findings).
- A saved record carries the id of the page it was saved from (script.js:645). Opening it while that
  page is still open selects the page as it is now, and the record's stored drawing is not read
  (script.js:671-675). So saving and then opening shows the drawing as saved, but an edit made in
  between stays on the surface.
- Deleting or switching can overwrite another page's drawing (see Findings).

## Model

| member | source | states |
|---|---|---|
| `Strings.Trim` | script.js:435 | `trim()`: the result is a contiguous run of the input; everything dropped is whitespace; it neither starts nor ends with whitespace; it is empty exactly when the input is all whitespace |
| `Strings.TrimIdempotent` | script.js:627 | trimming an already trimmed name changes nothing |
| `Strings.DecimalString` | script.js:466 | the page-number rendering is a non-empty string of digits with no leading zero, and the digits spell the number |
| `Strings.ParsePixels` | script.js:443-444 | `parseInt` of the overlay's `left`/`top` truncates toward zero: the result is within one pixel of the position, on the side of zero |
| `Style.LineStyle` | script.js:291-306 | the eraser strokes in the background colour and other tools in the primary colour; fill is the primary colour; 'double' halves the width and keeps the previous dash; every other style keeps the full width and sets an even-length, all-positive dash that is empty exactly for 'solid' |
| `Style.OnlyDoubleRemembersDash` | script.js:298-305 | only 'double' lets the context's previous dash show through; for it the result depends on nothing else of the previous pen |
| `Style.EraserPaintsBackground` | script.js:292 | the eraser's stroke colour is the colour a cleared surface is filled with |
| `Shapes.RectangleShape` | script.js:326-331 | one rectangle with a corner at the first point and its opposite corner at the second; filled or outlined as asked |
| `Shapes.CircleShape` | script.js:333-338 | one circle centred on the first point that passes through the second (radius squared = dx² + dy²) |
| `Shapes.TriangleShape` | script.js:340-347 | a closed path (x1,y1), (x2,y2), (2·x1−x2, y2): the base is horizontal, mirrored about the apex's vertical, and the triangle is isosceles |
| `Shapes.LineShape` | script.js:349-354 | one open, unfilled stroke from the first point to the second |
| `Shapes.ArrowShape` | script.js:356-366 | the line plus an arrowhead at the second point |
| `Shapes.StarShape` | script.js:368-396 | one star centred on the first point with its outer radius at the second |
| `Shapes.PreviewNeverFills` | script.js:8-15 | for every entry of the shape table (`Shapes.ShapeCommands`, the `find(...)?.draw` dispatch at script.js:314, 321), a preview (fill flag false) draws no filled primitive |
| `Shapes.FillFlag` | script.js:8-15 | through the shape table's dispatch (`Shapes.ShapeCommands`), lines and arrows ignore the fill flag; every other shape fills exactly when the flag is set |
| `Shapes.TriangleExample` | script.js:340-347 | a filled triangle from (0,0) to (4,6) has vertices (0,0), (4,6), (−4,6) |
| `Shapes.CircleExample` | script.js:333-338 | a circle from (10,10) to (10,20) is centred at (10,10) with radius 10 |
| `Keys.Binding` | script.js:175-193 | Ctrl/Cmd+`z` is undo and Ctrl/Cmd+`y` redo, in both directions; without a modifier a key selects a tool exactly when its lower case is that tool's letter |
| `Keys.ToolKeysIgnoreCase` | script.js:176-185 | tool letters work in either case; Ctrl+`Z` and Ctrl+`Y` do nothing |
| `History.Record` | script.js:541-547 | `saveState`: the entries up to the cursor are kept and the redo future dropped; the snapshot is appended; the cursor ends on it, at the last index |
| `History.Undo` | script.js:549-553 | a no-op when the cursor is at most 0; otherwise the cursor moves back one; entries never change; well-formedness is kept |
| `History.Redo` | script.js:555-559 | a no-op at the last index; otherwise the cursor moves forward one; entries never change; well-formedness is kept |
| `History.Reset` | script.js:570-575 | one entry, cursor 0; undo and redo are then no-ops |
| `History.UndoRedoInverse` | script.js:549-559 | undo then redo (and redo then undo) returns to the same ledger wherever the first move is not a no-op |
| `History.UndoAfterRecord` | script.js:541-553 | after a record, undo shows what was current before it, and redo restores the record |
| `History.RecordAllAtEnd` | script.js:541-547 | records made with the cursor at the end only append, and advance the cursor by their number |
| `History.UndoTimesMovesBack` | script.js:549-553 | n undos from a cursor of at least n move it back exactly n and change no entry |
| `History.RecordsThenUndos` | script.js:541-553 | from a single-entry ledger, N records leave the cursor at N, and N undos return to the first snapshot with all N still redoable |
| `History.BranchDiscardsRedo` | script.js:541-547 | record A, B, C, undo, undo, record D gives [A, D] with the cursor at 1 |
| `History.PreEditRecordingSkips` | script.js:219 | recording the surface before each edit, as the script does: after one edit s0 → s1, undo then redo shows s0, so s1 is lost; after edits s0 → s1 → s2 on a fresh ledger, the ledger is [s0, s0, s1], out of step with the surface; one undo shows s0, redo shows s1, and s2 is in no entry |
| `History.PostEditRecordingInStep` | script.js:549-559 | recording after the edit keeps the ledger in step with the surface; undo then shows the pre-edit surface and redo restores the edit |
| `History.PostEditUndoOneAtATime` | script.js:541-559 | with each edit recorded after it is painted, k undos show the surface as it was k edits ago, and a redo restores the edit undone last |
| `Pages.Captured` | script.js:483-484 | storing the canvas in a page sets its data and preview to the canvas and keeps its id and name |
| `Pages.SaveCurrent` | script.js:481-485 | `saveCurrentPage`: only the current page changes, and it gets the canvas; with no current page nothing changes |
| `Pages.NewPageNameCounts` | script.js:466 | a new page's name is "Drawing " followed by the digits, with no leading zero, of the new page count |
| `Pages.Create` | script.js:461-479 | `createNewPage`: the page left gets the canvas; exactly one blank page named "Drawing n+1" is appended and becomes current; all other pages are unchanged |
| `Pages.Select` | script.js:487-493 | an index outside the list changes nothing at all; otherwise the page left gets the canvas and the index becomes current |
| `Pages.SelectKeepsTarget` | script.js:487-493 | switching to another page leaves that page's stored drawing untouched |
| `Pages.Remove` | script.js:534 | `splice(i, 1)` removes exactly position i and keeps the rest in order |
| `Pages.DeleteAsWritten` | script.js:527-537 | the confirmed delete as written keeps the store valid, shrinks it by one and sets the index to min(old, n−2) |
| `Pages.Delete` | script.js:527-535 | the intended delete removes exactly the current page, keeps the others in order and unchanged, and sets the index to min(old, n−2) |
| `Pages.DeleteAsWrittenOverwrites` | script.js:534-536 | the as-written delete equals the intended one except that the page now current holds the deleted page's canvas |
| `Pages.DeleteLosesNeighbour` | script.js:534-536 | with two pages holding different drawings, deleting the first leaves the second holding the first's drawing |
| `Pages.OpenExistingAsWritten` | script.js:671-675 | opening a saved record that is already open at k selects k, stores the canvas into page k and changes no other page |
| `Pages.OpenExistingLosesTarget` | script.js:671-675 | with two pages, opening the second's record from the first overwrites the second's drawing, which switching pages does not |
| `Library.FirstMatch` | script.js:648 | `findIndex`: −1 or a matching position, with no match before it (and none at all for −1) |
| `Library.Lookup` | script.js:663-664 | `find` by name: the first record of that name in the collection, or None exactly when no record has it |
| `Library.SaveRecord` | script.js:646-656 | declining is the only refusal, and only when the name is taken; an overwrite replaces the first record of that name in place and keeps every other position; a new name is appended |
| `Library.SaveThenOpen` | script.js:642-664 | a successful save followed by an open of the same name finds exactly the saved record |
| `Library.SaveKeepsOtherNames` | script.js:648-654 | a save does not change what any other name opens |
| `Library.SaveKeepsNamesDistinct` | script.js:648-654 | if no two saved records shared a name, none do after a save |
| `Editor.Session.constructor` | script.js:29-45 | the initial values of the script's variables: no pages, empty ledger at −1, pencil, black, size 5, solid, rectangle |
| `Editor.Session.InitApp` | script.js:48-56 | initialisation creates the first page (`Pages.Create` of the initial store), after which there is a current page and a current ledger entry; the canvas is white, white is recorded, and the pen's fill is white, as `createNewPage` leaves it |
| `Editor.Session.SaveState` | script.js:541-547 | the ledger becomes `History.Record` of the old ledger and the canvas; nothing else changes |
| `Editor.Session.RestoreState` | script.js:561-568 | the canvas shows the ledger entry at the cursor |
| `Editor.Session.Undo` | script.js:549-553 | the ledger becomes `History.Undo` of the old one; the canvas shows the new current entry, or is unchanged on a no-op |
| `Editor.Session.Redo` | script.js:555-559 | the ledger becomes `History.Redo` of the old one; the canvas shows the new current entry, or is unchanged on a no-op |
| `Editor.Session.ClearCanvas` | script.js:570-575 | the canvas is white and the ledger is exactly one white snapshot at index 0 |
| `Editor.Session.RedrawCanvas` | script.js:577-590 | the canvas shows the current ledger entry, or white when the ledger is empty |
| `Editor.Session.SaveCurrentPage` | script.js:481-485 | the store becomes `Pages.SaveCurrent` of the old store and the canvas |
| `Editor.Session.LoadPage` | script.js:487-508 | out of range: nothing changes, not even the current page's data; otherwise the store becomes `Pages.Select`, and the page's data (or white, for a page with null data) is shown and is the only ledger entry |
| `Editor.Session.CreateNewPage` | script.js:461-479 | the store becomes `Pages.Create`; the canvas is white; the white snapshot is recorded on the existing ledger |
| `Editor.Session.DeleteCurrentPage` | script.js:527-538 | one page or fewer: the refusal notice and no change; declined: no change; confirmed: the store becomes `Pages.DeleteAsWritten`, the canvas is unchanged and becomes the only ledger entry |
| `Editor.Session.SavePageToStorage` | script.js:642-660 | the current page is always stored first; on a declined overwrite the collection and the name are unchanged; otherwise the collection becomes `Library.SaveRecord`'s and the open page takes the name and equals the saved record |
| `Editor.Session.OpenPageFromStorage` | script.js:662-691 | unknown name: the not-found notice and no change; an id already open: the store becomes `Pages.OpenExistingAsWritten`, with no page added, the canvas shown as the only ledger entry and the pen kept; otherwise exactly one page is added, it equals the saved record, its drawing (or white, with no data) is shown, and the pen's fill is white, as `createNewPage` leaves it |
| `Editor.Session.AddOpenedPage` | script.js:678-688 | the new-page branch of opening: the pages left are stored; exactly one page is added, equal to the record; its drawing (or white, with no data) is shown; the pen's fill is white, as `createNewPage` leaves it |
| `Editor.Session.PerformModalAction` | script.js:626-640 | a name that trims to nothing is refused with a notice and nothing else. Otherwise the trimmed name is used. A save has exactly `savePageToStorage`'s outcome: the page stored, the collection set to `Library.SaveRecord`'s result, the page renamed on success, and the canvas, ledger and pen kept; on success, opening the name finds that page. An open has exactly `openPageFromStorage`'s outcome, page by page, and never changes the collection |
| `Editor.Session.SetTool` | script.js:266-267 | the active tool becomes the chosen one |
| `Editor.Session.SetLineStyle` | script.js:291-306 | the pen becomes `Style.LineStyle` of the settings and the old pen |
| `Editor.Session.DrawShapePreview` | script.js:309-318 | the shape is drawn unfilled at alpha 0.5 with the style's pen on top of the canvas, and the pen is restored afterwards |
| `Editor.Session.DrawShape` | script.js:320-323 | the shape is drawn with the fill setting at full opacity on top of the canvas |
| `Editor.Session.StartDrawing` | script.js:203-228 | a no-op while text input is active; the text tool opens an overlay and records nothing; any other tool records the canvas once and sets the pen; a freehand tool strokes its first dot |
| `Editor.Session.BeginPath` | script.js:219-227 | the non-text half of `startDrawing`: the surface is recorded, the pen becomes `Style.LineStyle` of the settings, a path begins at the gesture's start, and a freehand tool paints its first dot there |
| `Editor.Session.Stroke` | script.js:242 | `ctx.stroke()` of the open path (here in `draw`, and at script.js:226 for the first dot): exactly one mark, the path in the current pen, is painted over the canvas |
| `Editor.Session.Draw` | script.js:230-249 | only during a gesture outside text input: freehand extends and strokes the path; the shape tool shows the current entry and previews over it |
| `Editor.Session.StopDrawing` | script.js:251-264 | only during a gesture outside text input: the gesture ends; only the shape tool records again, then draws the shape |
| `Editor.Session.CreateTextElement` | script.js:399-430 | opens the overlay at the click unless one is open; text input is then active |
| `Editor.Session.FinalizeText` | script.js:432-449 | records and draws the trimmed text at whole-pixel offsets only when it is non-empty; always ends with text input inactive and no overlay |
| `Editor.Session.CancelTextInput` | script.js:451-458 | the overlay is gone and text input inactive, with nothing drawn or recorded |
| `Editor.Session.HandleKey` | script.js:175-193 | the bound command runs. Undo or redo moves the ledger as `History.Undo`/`History.Redo` do, and the canvas shows the new current entry, or is unchanged when the move is a no-op. A tool key changes only the tool. Unbound keys change nothing |
| `Editor.TwoStrokesThenUndoRedo` | script.js:203-228 | on a fresh session, two pencil strokes then undo leave the surface white, and redo brings back only the first stroke |
| `Editor.SaveThenOpenShowsSaved` | script.js:642-675 | saving under a name (confirming an overwrite) then opening that name leaves the surface exactly as it was at the save, as the only ledger entry |
| `Editor.SaveStrokeThenOpen` | script.js:671-675 | after a save, one stroke, then an open of the saved name, the record still holds the drawing as saved, but the surface keeps the stroke |

## Findings

| source | as written | input that shows it | evidently intended | confidence | as-written member | corrected member |
|---|---|---|---|---|---|---|
| script.js:534-536 | `deleteCurrentPage` splices the page out, then calls `loadPage`, whose `saveCurrentPage` stores the canvas (still the deleted drawing) into the page that moved into its place | two pages holding drawings a ≠ b, the first current; confirm delete: the remaining page holds a | the remaining pages keep their own drawings, and the page now current is shown as stored | high (not executed) | `Pages.DeleteLosesNeighbour` (on `Pages.DeleteAsWritten`) | `Pages.Delete` |
| script.js:671-675 | `openPageFromStorage` sets `currentPageIndex` to the open page's index before `loadPage`, whose `saveCurrentPage` then stores the canvas into that page instead of the page being left | two pages holding a ≠ b, the first current; open the saved record of the second: the second page now holds a | the page being left is stored and the target page is shown as stored | high (not executed) | `Pages.OpenExistingLosesTarget` (on `Pages.OpenExistingAsWritten`) | `Pages.Select` with `Pages.SelectKeepsTarget` |
| script.js:219 | a freehand stroke (here) and a text label (script.js:437) call `saveState` before painting, so the ledger's current entry is the pre-edit surface; `undo` steps back one entry before restoring (script.js:549-553) | one stroke on a fresh page, undo, redo: the page is white and the stroke is lost. Two strokes, undo: the surface is white, both strokes gone; redo shows only the first stroke | each undo removes exactly the last edit, showing its pre-edit surface, and redo restores that edit | high (not executed) | `History.PreEditRecordingSkips`, `Editor.TwoStrokesThenUndoRedo` | `History.PostEditRecordingInStep` with `History.PostEditUndoOneAtATime` |

`Session` mirrors the program as written, so its `DeleteCurrentPage`, `OpenPageFromStorage`,
`StartDrawing` and `FinalizeText` keep the defects. The corrected behaviours are the pure
`Pages.Delete` and `Pages.Select`, and a ledger that records each edit after it is painted.

## Left out

- DOM setup and rendering glue is not modelled: `setupColorPalette`, `setupShapeButtons`,
  `setupToolButtons`, `setupEventListeners`, the cursor styling in `setTool`,
  `updatePageThumbnails`, `openModal`/`closeModal`, and the touch-to-mouse re-dispatch
  (script.js:694-722). `closeModal` after a modal action is not modelled either.
- Pixels are not modelled. Snapshots are lists of marks, so two snapshots that would render
  identically can still differ. The thumbnail's lossy encoding is a separate `Jpeg` value
  that nothing restores from.
- Image decodes (`Image.onload`) are taken to complete immediately (script.js:495-502, 562-567,
  580-584, 681-688). In the browser the decode finishes after the handler returns. So a
  shape preview in the model stays on the canvas until the next redraw, and the pointer-up
  record captures the last preview, which the browser's late decode would usually have
  wiped. Overlapping decodes and their order are not modelled.
- A decode that fails is modelled only for a saved record whose `data` is null: nothing
  happens. Malformed data is not modelled.
- JSON parsing and serialisation, and `localStorage` I/O, are not modelled. The collection is
  the `saved` field, passed to the constructor.
- `resizeCanvas` (script.js:18-27) is not modelled. It involves floating-point scaling, and
  resizing clears the bitmap.
- The geometry of circles is kept only as the centre and squared radius. It needs a square root
  (script.js:333-338).
- Shapes.ArrowShape: states only the line and an arrowhead at the second point pointing away from
  the first. Not modelled: the head length 15 and the two strokes at ±30° (script.js:358-364), which need
  trigonometry.
- Shapes.StarShape: states only the centre and the squared outer radius. Not modelled: five spikes,
  the inner radius at half the outer, and the first vertex straight up (script.js:369-393), which need
  trigonometry.
- The context's current path is tracked only for freehand strokes. The `beginPath` calls
  inside shape functions are not tracked. This matters only if the tool changes in the
  middle of a drag.
- `lineJoin`/`lineCap` ('round'), `textBaseline` ('top') and the secondary colour are not
  modelled. They are constants, or never read by drawing.
- Keys: `toLowerCase` is modelled on ASCII letters. No other character lowercases to a tool
  letter. `preventDefault` is not modelled.
- Coordinates and sizes are exact `real` numbers. Double-precision rounding, for example of
  `x1 * 2 - x2` at script.js:344, is not modelled.
- Pointer coordinates are surface-local parameters. The `e.clientX || e.touches[0].clientX`
  fallback is not modelled.
- Text overlay: focus handling, `setTimeout` and the overlay's own styling are not modelled.
  The typed text and the font controls are parameters of `FinalizeText`.
- The paint-style selector's values are taken to be the six styles that `setLineStyle`
  handles. `brushSize` holds the numeric value of the size input, which the script keeps as
  a string.
- Page ids are the clock readings themselves, not their decimal strings. Two pages created
  in the same millisecond share an id, as in the source.

=== FILE: canvas.dfy ===
/**
 * The raster surface, described by what has been drawn on it.
 *
 * A snapshot (the value `canvas.toDataURL()` returns) is the list of marks painted since
 * the surface was last covered by an opaque full-surface fill. Capturing a snapshot and
 * restoring it are then exact inverses, and a full-surface fill hides everything beneath it.
 */
module Canvas {
  /** A point in surface-local pixel coordinates (JavaScript numbers, without rounding). */
  datatype Point = Point(x: real, y: real)

  /** Squared Euclidean distance, so that radii need no square root. */
  function SqDist(p: Point, q: Point): real
  {
    (q.x - p.x) * (q.x - p.x) + (q.y - p.y) * (q.y - p.y)
  }

  /** The drawing context's strokeStyle, fillStyle, lineWidth and line-dash pattern. */
  datatype Pen = Pen(stroke: string, fill: string, width: real, dash: seq<real>)

  /** A fresh 2D context: black stroke and fill, width 1, no dashes. */
  const DefaultPen := Pen("#000000", "#000000", 1.0, [])

  /** One rendering primitive of the context. */
  datatype Prim =
    /** `stroke()` (or `fill()` when filled) of a polyline path, closed by `closePath()` or not. */
    | Path(points: seq<Point>, closed: bool, filled: bool)
    /** `fillRect` or `strokeRect` at a corner with a signed width and height. */
    | Rect(corner: Point, width: real, height: real, filled: bool)
    /** A full `arc` around a centre; the radius is the square root of radiusSquared. */
    | Arc(center: Point, radiusSquared: real, filled: bool)
    /** The two 15-unit strokes at plus and minus 30 degrees that form an arrowhead at tip. */
    | ArrowHead(tip: Point, tail: Point)
    /** A five-point star around a centre, inner radius half the outer one. */
    | StarOutline(center: Point, outerRadiusSquared: real, filled: bool)
    /** `fillText` with textBaseline 'top' at integer pixel offsets. */
    | Label(text: string, left: int, top: int, font: string)

  /** Whether a primitive paints its interior rather than its outline. */
  predicate Fills(p: Prim)
  {
    match p
    case Path(_, _, filled) => filled
    case Rect(_, _, _, filled) => filled
    case Arc(_, _, filled) => filled
    case ArrowHead(_, _) => false
    case StarOutline(_, _, filled) => filled
    case Label(_, _, _, _) => true
  }

  /** A mark on the surface: an opaque fill of the whole surface, or a primitive drawn with a pen at an alpha. */
  datatype Mark = Cover(color: string) | Ink(prim: Prim, pen: Pen, alpha: real)

  type Snapshot = seq<Mark>

  /** `toDataURL('image/jpeg', 0.1)`: a lossy copy used only as a page preview. */
  datatype Thumbnail = Jpeg(source: Snapshot)

  /** The background colour that "clear", "new page" and the eraser use. */
  const Background := "#ffffff"

  /** A surface filled with the background colour. */
  const White: Snapshot := [Cover(Background)]

  /** A surface nothing was ever drawn on (before the first page is created). */
  const Transparent: Snapshot := []

  /** Draws one mark on the surface. */
  function Paint(c: Snapshot, m: Mark): (r: Snapshot)
    ensures m.Cover? ==> r == [m]
    ensures m.Ink? ==> r == c + [m] && r[..|c|] == c
  {
    match m
    case Cover(_) => [m]
    case Ink(_, _, _) => c + [m]
  }

  /** Draws marks one after the other. */
  function PaintAll(c: Snapshot, ms: seq<Mark>): Snapshot
    decreases |ms|
  {
    if ms == [] then c else PaintAll(Paint(c, ms[0]), ms[1..])
  }

  /** The marks a list of primitives leaves when drawn with one pen at one alpha. */
  function Inked(prims: seq<Prim>, pen: Pen, alpha: real): (ms: seq<Mark>)
    ensures |ms| == |prims|
    ensures forall i :: 0 <= i < |prims| ==> ms[i] == Ink(prims[i], pen, alpha)
  {
    seq(|prims|, i requires 0 <= i < |prims| => Ink(prims[i], pen, alpha))
  }

  /** Drawing only primitives (no full-surface fill) keeps everything already there and adds the marks on top. */
  lemma {:induction false} PaintInkAppends(c: Snapshot, ms: seq<Mark>)
    requires forall i :: 0 <= i < |ms| ==> ms[i].Ink?
    ensures PaintAll(c, ms) == c + ms
    decreases |ms|
  {
    if ms != [] {
      PaintInkAppends(c + [ms[0]], ms[1..]);
      assert (c + [ms[0]]) + ms[1..] == c + ms;
    }
  }
}

=== FILE: editor.dfy ===
/**
 * The editing session: the state the page script keeps in closure variables (canvas, undo ledger,
 * open pages, saved collection, gesture and text-overlay flags, tool settings) and the handlers
 * that update it step by step.
 */
module Editor {
  import opened Wrappers
  import opened Canvas
  import opened Style
  import opened Shapes
  import Strings
  import Keys
  import History
  import Pages
  import Library

  /** The editable text box the text tool opens, positioned at the click. */
  datatype Overlay = Overlay(left: real, top: real)

  /** What the name dialog was opened for. */
  datatype ModalAction = SaveDrawing | OpenDrawing

  const OnlyPageMessage := "You can't delete the only page."
  const EmptyNameMessage := "Please enter a drawing name"
  const SavedMessage := "Drawing saved successfully!"
  const NotFoundMessage := "Drawing not found"

  class Session {
    /** What is on the surface now. */
    var canvas: Snapshot
    /** drawingHistory and historyIndex. */
    var history: seq<Snapshot>
    var historyIndex: int
    /** pages and currentPageIndex. */
    var pages: seq<Pages.Page>
    var currentPageIndex: int
    /** The collection persisted under 'paintingAppPages'. */
    var saved: seq<Pages.Page>
    var isDrawing: bool
    var textInputActive: bool
    /** currentTextElement. */
    var overlay: Option<Overlay>
    /** Settings the toolbar controls write. */
    var currentTool: Tool
    var currentColor: string
    var brushSize: real
    var paintStyle: PaintStyle
    var currentShape: ShapeKind
    var fillShape: bool
    /** startX, startY: where the current gesture began. */
    var start: Point
    /** The drawing context's pen and current path. */
    var pen: Pen
    var path: seq<Point>

    function Log(): History.Log
      reads this
    {
      History.Log(history, historyIndex)
    }

    function Store(): Pages.Store
      reads this
    {
      Pages.Store(pages, currentPageIndex)
    }

    /** The ledger cursor and page index are in range (or both at -1 before the first page), and an overlay exists exactly while text input is active. */
    ghost predicate Valid()
      reads this
    {
      History.WellFormed(Log()) && Pages.WellFormed(Store()) && (textInputActive <==> overlay.Some?)
    }

    /** After the first page is created: a current ledger entry and a current page. */
    ghost predicate Started()
      reads this
    {
      Valid() && History.Valid(Log()) && Pages.Valid(Store())
    }

    /** The state the script declares before initialising, with the stored collection as found. */
    constructor (stored: seq<Pages.Page>)
      ensures Valid() && saved == stored
      ensures canvas == Transparent && Log() == History.Empty && pages == [] && currentPageIndex == -1
      ensures !isDrawing && !textInputActive && currentTool == Pencil && pen == DefaultPen && path == []
      ensures currentColor == "#000000" && brushSize == 5.0 && paintStyle == Solid && currentShape == Rectangle && !fillShape
    {
      canvas := Transparent;
      history, historyIndex := [], -1;
      pages, currentPageIndex := [], -1;
      saved := stored;
      isDrawing, textInputActive, overlay := false, false, None;
      currentTool := Pencil;
      currentColor := "#000000";
      brushSize := 5.0;
      paintStyle := Solid;
      currentShape := Rectangle;
      fillShape := false;
      start := Point(0.0, 0.0);
      pen := DefaultPen;
      path := [];
    }

    /** `initApp`: the first page is created. */
    method InitApp(now: nat)
      requires Valid()
      modifies this`pages, this`currentPageIndex, this`pen, this`canvas, this`history, this`historyIndex
      ensures Started()
      ensures Store() == Pages.Create(old(Store()), old(canvas), now) && canvas == White
      ensures Log() == History.Record(old(Log()), White)
      ensures pen == old(pen).(fill := Background)
    {
      CreateNewPage(now);
    }

    // ---------------------------------------------------------------- undo / redo ledger

    /** `saveState`: the canvas is recorded, discarding the redo future. */
    method SaveState()
      requires Valid()
      modifies this`history, this`historyIndex
      ensures Valid() && History.Valid(Log())
      ensures Log() == History.Record(old(Log()), canvas)
    {
      if historyIndex < |history| - 1 {
        history := history[..historyIndex + 1];
      }
      history := history + [canvas];
      historyIndex := historyIndex + 1;
    }

    /** `restoreState`, with the image decode completing at once. */
    method RestoreState()
      requires 0 <= historyIndex < |history|
      modifies this`canvas
      ensures canvas == history[historyIndex]
    {
      canvas := history[historyIndex];
    }

    /** `undo`: nothing at the first entry; otherwise step back and show that entry. */
    method Undo()
      requires Valid()
      modifies this`historyIndex, this`canvas
      ensures Valid()
      ensures Log() == History.Undo(old(Log()))
      ensures old(historyIndex) <= 0 ==> canvas == old(canvas)
      ensures old(historyIndex) > 0 ==> canvas == History.Current(Log())
    {
      if historyIndex <= 0 {
        return;
      }
      historyIndex := historyIndex - 1;
      RestoreState();
    }

    /** `redo`: nothing at the last entry; otherwise step forward and show that entry. */
    method Redo()
      requires Valid()
      modifies this`historyIndex, this`canvas
      ensures Valid()
      ensures Log() == History.Redo(old(Log()))
      ensures old(historyIndex) >= |history| - 1 ==> canvas == old(canvas)
      ensures old(historyIndex) < |history| - 1 ==> canvas == History.Current(Log())
    {
      if historyIndex >= |history| - 1 {
        return;
      }
      historyIndex := historyIndex + 1;
      RestoreState();
    }

    /** `clearCanvas`: the surface is filled white and the ledger becomes that one snapshot. */
    method ClearCanvas()
      requires Valid()
      modifies this`pen, this`canvas, this`history, this`historyIndex
      ensures Valid()
      ensures canvas == White && Log() == History.Reset(White)
      ensures pen == old(pen).(fill := Background)
    {
      pen := pen.(fill := Background);
      canvas := Paint(canvas, Cover(pen.fill));
      history := [canvas];
      historyIndex := 0;
    }

    /** `redrawCanvas`: show the current ledger entry, or a white surface when there is none. */
    method RedrawCanvas()
      requires Valid()
      modifies this`canvas, this`pen
      ensures old(historyIndex) >= 0 ==> canvas == History.Current(Log()) && pen == old(pen)
      ensures old(historyIndex) < 0 ==> canvas == White && pen == old(pen).(fill := Background)
    {
      if historyIndex >= 0 {
        canvas := history[historyIndex];
      } else {
        pen := pen.(fill := Background);
        canvas := Paint(Transparent, Cover(pen.fill));
      }
    }

    // ---------------------------------------------------------------- page store

    /** `saveCurrentPage`: the canvas (and a preview) go into the current page, if there is one. */
    method SaveCurrentPage()
      requires Valid()
      modifies this`pages
      ensures Valid()
      ensures Store() == Pages.SaveCurrent(old(Store()), canvas)
    {
      if currentPageIndex == -1 || !(0 <= currentPageIndex < |pages|) {
        return;
      }
      pages := pages[currentPageIndex := pages[currentPageIndex].(data := Some(canvas), thumbnail := Some(Jpeg(canvas)))];
    }

    /**
     * `loadPage`: an index outside the list changes nothing. Otherwise the page being left is stored,
     * the index moves, and the page's stored drawing (or, for a page never stored, a cleared white
     * surface) is shown and becomes the only ledger entry.
     */
    method LoadPage(index: int)
      requires Valid()
      modifies this`pages, this`currentPageIndex, this`canvas, this`history, this`historyIndex, this`pen
      ensures Valid()
      ensures !(0 <= index < |old(pages)|) ==> unchanged(this)
      ensures 0 <= index < |old(pages)| ==> Started() && Store() == Pages.Select(old(Store()), index, old(canvas))
      ensures 0 <= index < |old(pages)| && pages[index].data.Some? ==>
        canvas == pages[index].data.value && Log() == History.Reset(canvas) && pen == old(pen)
      ensures 0 <= index < |old(pages)| && pages[index].data.None? ==>
        canvas == White && Log() == History.Reset(White) && pen == old(pen).(fill := Background)
    {
      if index < 0 || index >= |pages| {
        return;
      }
      SaveCurrentPage();
      currentPageIndex := index;
      var page := pages[index];
      if page.data.Some? {
        canvas := page.data.value;
        history := [canvas];
        historyIndex := 0;
      } else {
        ClearCanvas();
      }
    }

    /**
     * `createNewPage`: the page being left is stored, a blank page is appended and made current,
     * the surface is filled white, and that white surface is recorded on the existing ledger
     * (which is not reset).
     */
    method CreateNewPage(now: nat)
      requires Valid()
      modifies this`pages, this`currentPageIndex, this`pen, this`canvas, this`history, this`historyIndex
      ensures Started()
      ensures Store() == Pages.Create(old(Store()), old(canvas), now)
      ensures canvas == White && pen == old(pen).(fill := Background)
      ensures Log() == History.Record(old(Log()), White)
    {
      SaveCurrentPage();
      var page := Pages.Blank(now, |pages|);
      pages := pages + [page];
      currentPageIndex := |pages| - 1;
      pen := pen.(fill := Background);
      canvas := Paint(canvas, Cover(pen.fill));
      SaveState();
    }

    /**
     * `deleteCurrentPage`: refused with a notice when at most one page is open; nothing happens when the
     * user does not confirm; otherwise the current page is spliced out, the index clamped, and the page
     * at that index loaded. `confirmed` is the answer the user gives if asked.
     */
    method DeleteCurrentPage(confirmed: bool) returns (notice: Option<string>)
      requires Valid()
      modifies this`pages, this`currentPageIndex, this`canvas, this`history, this`historyIndex, this`pen
      ensures Valid()
      ensures |old(pages)| <= 1 ==> notice == Some(OnlyPageMessage) && unchanged(this)
      ensures |old(pages)| > 1 ==> notice == None
      ensures |old(pages)| > 1 && !confirmed ==> unchanged(this)
      ensures |old(pages)| > 1 && confirmed ==>
        Store() == Pages.DeleteAsWritten(old(Store()), old(canvas))
        && canvas == old(canvas) && Log() == History.Reset(old(canvas)) && pen == old(pen)
    {
      if |pages| <= 1 {
        notice := Some(OnlyPageMessage);
        return;
      }
      notice := None;
      if confirmed {
        pages := pages[..currentPageIndex] + pages[currentPageIndex + 1..];
        currentPageIndex := if currentPageIndex < |pages| - 1 then currentPageIndex else |pages| - 1;
        LoadPage(currentPageIndex);
      }
    }

    // ---------------------------------------------------------------- saved drawings

    /**
     * `savePageToStorage`: the current page is stored first; the record (that page under the new name)
     * then overwrites the first saved record of that name if the user confirms, or is appended when no
     * record has the name. On success the open page takes the name; on a declined overwrite the saved
     * collection and the page name stay as they were.
     */
    method SavePageToStorage(name: string, confirmed: bool) returns (notice: Option<string>)
      requires Started()
      modifies this`pages, this`saved
      ensures Started()
      ensures var stored := Pages.SaveCurrent(old(Store()), canvas).pages;
        var record := stored[currentPageIndex].(name := name);
        match Library.SaveRecord(old(saved), record, confirmed)
        case None => saved == old(saved) && pages == stored && notice == None
        case Some(s) => saved == s && pages == stored[currentPageIndex := record] && notice == Some(SavedMessage)
    {
      SaveCurrentPage();
      var record := pages[currentPageIndex].(name := name);
      var k := Library.IndexOfName(saved, name);
      if k != -1 {
        if !confirmed {
          notice := None;
          return;
        }
        saved := saved[k := record];
      } else {
        saved := saved + [record];
      }
      pages := pages[currentPageIndex := pages[currentPageIndex].(name := name)];
      notice := Some(SavedMessage);
    }

    /**
     * `openPageFromStorage`: an unknown name changes nothing. A record whose id matches an open page
     * selects that page (setting the index before loading it). Otherwise a new page is created, replaced
     * by the record, and the record's drawing becomes the canvas and the only ledger entry.
     */
    method OpenPageFromStorage(name: string, now: nat) returns (notice: Option<string>)
      requires Started()
      modifies this`pages, this`currentPageIndex, this`pen, this`canvas, this`history, this`historyIndex
      ensures Started()
      ensures Library.Lookup(saved, name).None? ==> notice == Some(NotFoundMessage) && unchanged(this)
      ensures Library.Lookup(saved, name).Some? ==> notice == None
      ensures Library.Lookup(saved, name).Some? && Library.IndexOfId(old(pages), Library.Lookup(saved, name).value.id) >= 0 ==>
        var k := Library.IndexOfId(old(pages), Library.Lookup(saved, name).value.id);
        Store() == Pages.OpenExistingAsWritten(old(Store()), k, old(canvas))
        && canvas == old(canvas) && Log() == History.Reset(old(canvas)) && pen == old(pen)
      ensures Library.Lookup(saved, name).Some? && Library.IndexOfId(old(pages), Library.Lookup(saved, name).value.id) < 0 ==>
        var record := Library.Lookup(saved, name).value;
        |pages| == |old(pages)| + 1 && currentPageIndex == |old(pages)|
        && pages[..|old(pages)|] == Pages.SaveCurrent(old(Store()), old(canvas)).pages
        && pages[currentPageIndex] == record
        && (record.data.Some? ==> canvas == record.data.value && Log() == History.Reset(canvas))
        && (record.data.None? ==> canvas == White && Log() == History.Record(old(Log()), White))
        && pen == old(pen).(fill := Background)
    {
      var found := Library.Lookup(saved, name);
      if found.None? {
        notice := Some(NotFoundMessage);
        return;
      }
      notice := None;
      var record := found.value;
      var k := Library.IndexOfId(pages, record.id);
      if k != -1 {
        currentPageIndex := k;
        LoadPage(currentPageIndex);
        assert Store() == Pages.OpenExistingAsWritten(old(Store()), k, old(canvas));
        assert pages[k].data == Some(old(canvas));
        return;
      }
      AddOpenedPage(record, now);
    }

    /**
     * The new-page branch of `openPageFromStorage`: a page is created and replaced by the record, and
     * the record's drawing, when it has one, becomes the canvas and the only ledger entry.
     */
    method AddOpenedPage(record: Pages.Page, now: nat)
      requires Started()
      modifies this`pages, this`currentPageIndex, this`pen, this`canvas, this`history, this`historyIndex
      ensures Started()
      ensures |pages| == |old(pages)| + 1 && currentPageIndex == |old(pages)|
        && pages[..|old(pages)|] == Pages.SaveCurrent(old(Store()), old(canvas)).pages
        && pages[currentPageIndex] == record
      ensures record.data.Some? ==> canvas == record.data.value && Log() == History.Reset(canvas)
      ensures record.data.None? ==> canvas == White && Log() == History.Record(old(Log()), White)
      ensures pen == old(pen).(fill := Background)
    {
      CreateNewPage(now);
      ghost var created := pages;
      pages := pages[currentPageIndex := record];
      assert pages[..|old(pages)|] == created[..|old(pages)|];
      if record.data.Some? {
        canvas := record.data.value;
        history := [canvas];
        historyIndex := 0;
      }
    }

    /**
     * `performModalAction`: a name that trims to nothing is refused with a notice and nothing else;
     * otherwise the trimmed name is saved or opened.
     */
    method PerformModalAction(action: ModalAction, input: string, confirmed: bool, now: nat) returns (notice: Option<string>)
      requires Started()
      modifies this`pages, this`currentPageIndex, this`pen, this`canvas, this`history, this`historyIndex, this`saved
      ensures Started()
      ensures Strings.Trim(input) == [] ==> notice == Some(EmptyNameMessage) && unchanged(this)
      ensures Strings.Trim(input) != [] && action.OpenDrawing? ==> saved == old(saved)
      ensures Strings.Trim(input) != [] && action.OpenDrawing? && Library.Lookup(old(saved), Strings.Trim(input)).None? ==>
        notice == Some(NotFoundMessage) && unchanged(this)
      ensures Strings.Trim(input) != [] && action.OpenDrawing? && Library.Lookup(old(saved), Strings.Trim(input)).Some? ==>
        var record := Library.Lookup(old(saved), Strings.Trim(input)).value;
        var k := Library.IndexOfId(old(pages), record.id);
        notice == None
        && (k >= 0 ==>
          Store() == Pages.OpenExistingAsWritten(old(Store()), k, old(canvas))
          && canvas == old(canvas) && Log() == History.Reset(old(canvas)) && pen == old(pen))
        && (k < 0 ==>
          |pages| == |old(pages)| + 1 && currentPageIndex == |old(pages)|
          && pages[..|old(pages)|] == Pages.SaveCurrent(old(Store()), old(canvas)).pages
          && pages[currentPageIndex] == record && pen == old(pen).(fill := Background)
          && (record.data.Some? ==> canvas == record.data.value && Log() == History.Reset(canvas))
          && (record.data.None? ==> canvas == White && Log() == History.Record(old(Log()), White)))
      ensures Strings.Trim(input) != [] && action.SaveDrawing? ==>
        currentPageIndex == old(currentPageIndex) && Log() == old(Log()) && canvas == old(canvas) && pen == old(pen)
        && pages[currentPageIndex].data == Some(canvas)
        && var stored := Pages.SaveCurrent(old(Store()), old(canvas)).pages;
           var record := stored[old(currentPageIndex)].(name := Strings.Trim(input));
           match Library.SaveRecord(old(saved), record, confirmed)
           case None => saved == old(saved) && pages == stored && notice == None
           case Some(s) => saved == s && pages == stored[old(currentPageIndex) := record] && notice == Some(SavedMessage)
      ensures Strings.Trim(input) != [] && action.SaveDrawing? ==>
        && (notice == Some(SavedMessage) <==> confirmed || Library.Lookup(old(saved), Strings.Trim(input)).None?)
        && (notice != Some(SavedMessage) ==> saved == old(saved))
        && (notice == Some(SavedMessage) ==> Library.Lookup(saved, Strings.Trim(input)) == Some(pages[currentPageIndex]))
    {
      var name := Strings.Trim(input);
      if name == [] {
        notice := Some(EmptyNameMessage);
        return;
      }
      if action.SaveDrawing? {
        notice := SavePageToStorage(name, confirmed);
        ghost var stored := Pages.SaveCurrent(old(Store()), canvas).pages;
        ghost var record := stored[currentPageIndex].(name := name);
        if Library.SaveRecord(old(saved), record, confirmed).Some? {
          Library.SaveThenOpen(old(saved), record, confirmed);
        }
      } else {
        notice := OpenPageFromStorage(name, now);
      }
    }

    // ---------------------------------------------------------------- gestures and text

    /** `setTool`: the active tool (cursor styling aside). */
    method SetTool(tool: Tool)
      modifies this`currentTool
      ensures currentTool == tool
    {
      currentTool := tool;
    }

    /** `setLineStyle`: the pen takes the current tool settings. */
    method SetLineStyle()
      modifies this`pen
      ensures pen == LineStyle(currentTool, currentColor, brushSize, paintStyle, old(pen))
    {
      var dash := match DashPattern(paintStyle) case Some(d) => d case None => pen.dash;
      var width := if paintStyle.Double? then brushSize / 2.0 else brushSize;
      pen := Pen(if currentTool.Eraser? then Background else currentColor, currentColor, width, dash);
    }

    /** `ctx.stroke()` of the current (open) path. */
    method Stroke()
      modifies this`canvas
      ensures canvas == old(canvas) + [Ink(Path(path, false, false), pen, 1.0)]
    {
      canvas := Paint(canvas, Ink(Path(path, false, false), pen, 1.0));
    }

    /** `drawShapePreview`: the selected shape, never filled, at half opacity; the pen is saved and restored around it. */
    method DrawShapePreview(from: Point, to: Point)
      modifies this`pen, this`canvas
      ensures pen == old(pen)
      ensures canvas == old(canvas)
        + Inked(ShapeCommands(currentShape, from, to, false), LineStyle(currentTool, currentColor, brushSize, paintStyle, old(pen)), 0.5)
    {
      var savedPen := pen;
      SetLineStyle();
      var marks := Inked(ShapeCommands(currentShape, from, to, false), pen, 0.5);
      PaintInkAppends(canvas, marks);
      canvas := PaintAll(canvas, marks);
      pen := savedPen;
    }

    /** `drawShape`: the selected shape with the fill setting, at full opacity, with the pen as it is. */
    method DrawShape(from: Point, to: Point)
      modifies this`canvas
      ensures canvas == old(canvas) + Inked(ShapeCommands(currentShape, from, to, fillShape), pen, 1.0)
    {
      var marks := Inked(ShapeCommands(currentShape, from, to, fillShape), pen, 1.0);
      PaintInkAppends(canvas, marks);
      canvas := PaintAll(canvas, marks);
    }

    /**
     * `startDrawing`: ignored while text input is active. Otherwise the gesture starts at `at`; the text
     * tool opens an overlay there and records nothing; every other tool records the surface once, takes
     * the pen from the settings and begins a path, and a freehand tool strokes its first dot.
     */
    method StartDrawing(at: Point)
      requires Valid()
      modifies this`isDrawing, this`start, this`textInputActive, this`overlay, this`history, this`historyIndex,
        this`path, this`pen, this`canvas
      ensures Valid()
      ensures old(textInputActive) ==> unchanged(this)
      ensures !old(textInputActive) ==> isDrawing && start == at
      ensures !old(textInputActive) && currentTool.Text? ==>
        textInputActive && overlay == Some(Overlay(at.x, at.y))
        && Log() == old(Log()) && canvas == old(canvas) && pen == old(pen) && path == old(path)
      ensures !old(textInputActive) && !currentTool.Text? ==>
        !textInputActive && overlay == old(overlay)
        && Log() == History.Record(old(Log()), old(canvas))
        && pen == LineStyle(currentTool, currentColor, brushSize, paintStyle, old(pen))
      ensures !old(textInputActive) && Freehand(currentTool) ==>
        path == [at, at] && canvas == old(canvas) + [Ink(Path([at, at], false, false), pen, 1.0)]
      ensures !old(textInputActive) && currentTool.Shape? ==> path == [at] && canvas == old(canvas)
    {
      if textInputActive {
        return;
      }
      isDrawing := true;
      start := at;
      if currentTool.Text? {
        CreateTextElement(start);
        return;
      }
      BeginPath();
    }

    /**
     * The non-text part of `startDrawing`: the surface is recorded, the pen taken from the settings and
     * a path begun at the gesture's start; a freehand tool strokes its first dot there.
     */
    method BeginPath()
      requires Valid() && !currentTool.Text?
      modifies this`history, this`historyIndex, this`path, this`pen, this`canvas
      ensures Valid()
      ensures Log() == History.Record(old(Log()), old(canvas))
      ensures pen == LineStyle(currentTool, currentColor, brushSize, paintStyle, old(pen))
      ensures Freehand(currentTool) ==>
        path == [start, start] && canvas == old(canvas) + [Ink(Path([start, start], false, false), pen, 1.0)]
      ensures currentTool.Shape? ==> path == [start] && canvas == old(canvas)
    {
      SaveState();
      path := [start];
      SetLineStyle();
      if Freehand(currentTool) {
        path := path + [start];
        Stroke();
      }
    }

    /**
     * `draw`: only during a gesture and outside text input. A freehand tool extends the path to `at` and
     * strokes it; the shape tool shows the current ledger entry again and previews the shape from the
     * gesture's start to `at` over it.
     */
    method Draw(at: Point)
      requires Valid()
      modifies this`path, this`canvas, this`pen
      ensures Valid()
      ensures !old(isDrawing) || old(textInputActive) || currentTool.Text? ==> unchanged(this)
      ensures old(isDrawing) && !old(textInputActive) && Freehand(currentTool) ==>
        path == old(path) + [at] && pen == old(pen) && canvas == old(canvas) + [Ink(Path(path, false, false), pen, 1.0)]
      ensures old(isDrawing) && !old(textInputActive) && currentTool.Shape? ==>
        path == old(path)
        && (historyIndex >= 0 ==> pen == old(pen))
        && (historyIndex < 0 ==> pen == old(pen).(fill := Background))
        && canvas == (if historyIndex >= 0 then History.Current(Log()) else White)
          + Inked(ShapeCommands(currentShape, start, at, false), LineStyle(Shape, currentColor, brushSize, paintStyle, pen), 0.5)
    {
      if !isDrawing || textInputActive {
        return;
      }
      match currentTool {
        case Pencil =>
          path := path + [at];
          Stroke();
        case Brush =>
          path := path + [at];
          Stroke();
        case Eraser =>
          path := path + [at];
          Stroke();
        case Shape =>
          RedrawCanvas();
          DrawShapePreview(start, at);
        case Text =>
      }
    }

    /**
     * `stopDrawing` (pointer up or leaving the canvas): only during a gesture and outside text input.
     * The gesture ends; with the shape tool the surface is recorded a second time and the shape is
     * drawn from the start to `at`.
     */
    method StopDrawing(at: Point)
      requires Valid()
      modifies this`isDrawing, this`history, this`historyIndex, this`canvas
      ensures Valid()
      ensures !old(isDrawing) || old(textInputActive) ==> unchanged(this)
      ensures old(isDrawing) && !old(textInputActive) ==> !isDrawing
      ensures old(isDrawing) && !old(textInputActive) && !currentTool.Shape? ==>
        Log() == old(Log()) && canvas == old(canvas)
      ensures old(isDrawing) && !old(textInputActive) && currentTool.Shape? ==>
        Log() == History.Record(old(Log()), old(canvas))
        && canvas == old(canvas) + Inked(ShapeCommands(currentShape, start, at, fillShape), pen, 1.0)
    {
      if !isDrawing || textInputActive {
        return;
      }
      isDrawing := false;
      if currentTool.Shape? {
        SaveState();
        DrawShape(start, at);
      }
    }

    /** `createTextElement`: opens the overlay at `at`, unless one is already open. */
    method CreateTextElement(at: Point)
      requires Valid()
      modifies this`textInputActive, this`overlay
      ensures Valid() && textInputActive
      ensures old(textInputActive) ==> overlay == old(overlay)
      ensures !old(textInputActive) ==> overlay == Some(Overlay(at.x, at.y))
    {
      if textInputActive {
        return;
      }
      textInputActive := true;
      overlay := Some(Overlay(at.x, at.y));
    }

    /**
     * `finalizeText` (Enter, or the overlay losing focus) with `content` the text typed into the overlay
     * and `fontSize`, `fontFamily` the font controls: when the trimmed text is non-empty, the surface is
     * recorded and the text drawn at the overlay's whole-pixel position in the primary colour; the overlay
     * is closed either way, so text input always ends inactive.
     */
    method FinalizeText(content: string, fontSize: string, fontFamily: string)
      requires Valid()
      modifies this`textInputActive, this`overlay, this`history, this`historyIndex, this`pen, this`canvas
      ensures Valid() && !textInputActive && overlay.None?
      ensures !(old(textInputActive) && Strings.Trim(content) != []) ==>
        Log() == old(Log()) && canvas == old(canvas) && pen == old(pen)
      ensures old(textInputActive) && Strings.Trim(content) != [] ==>
        Log() == History.Record(old(Log()), old(canvas))
        && pen == old(pen).(fill := currentColor)
        && canvas == old(canvas) + [Ink(Label(Strings.Trim(content), Strings.ParsePixels(old(overlay).value.left),
             Strings.ParsePixels(old(overlay).value.top), fontSize + "px " + fontFamily), pen, 1.0)]
    {
      if !textInputActive || overlay.None? {
        return;
      }
      var text := Strings.Trim(content);
      if text != [] {
        SaveState();
        pen := pen.(fill := currentColor);
        var lettering := Label(text, Strings.ParsePixels(overlay.value.left), Strings.ParsePixels(overlay.value.top),
          fontSize + "px " + fontFamily);
        canvas := Paint(canvas, Ink(lettering, pen, 1.0));
      }
      CancelTextInput();
    }

    /** `cancelTextInput` (Escape): the overlay is removed and text input ends, with nothing drawn or recorded. */
    method CancelTextInput()
      modifies this`textInputActive, this`overlay
      ensures !textInputActive && overlay.None?
    {
      overlay := None;
      textInputActive := false;
    }

    /** The document keydown handler: Ctrl/Cmd+Z undoes, Ctrl/Cmd+Y redoes, a tool letter selects that tool. */
    method HandleKey(key: string, modifier: bool)
      requires Valid()
      modifies this`currentTool, this`historyIndex, this`canvas
      ensures Valid()
      ensures Keys.Binding(key, modifier).None? ==> unchanged(this)
      ensures Keys.Binding(key, modifier) == Some(Keys.UndoCommand) ==>
        Log() == History.Undo(old(Log())) && currentTool == old(currentTool)
        && (old(historyIndex) <= 0 ==> canvas == old(canvas))
        && (old(historyIndex) > 0 ==> canvas == History.Current(Log()))
      ensures Keys.Binding(key, modifier) == Some(Keys.RedoCommand) ==>
        Log() == History.Redo(old(Log())) && currentTool == old(currentTool)
        && (old(historyIndex) >= |history| - 1 ==> canvas == old(canvas))
        && (old(historyIndex) < |history| - 1 ==> canvas == History.Current(Log()))
      ensures forall t :: Keys.Binding(key, modifier) == Some(Keys.UseTool(t)) ==>
        currentTool == t && Log() == old(Log()) && canvas == old(canvas)
    {
      var command := Keys.Binding(key, modifier);
      if command.Some? {
        match command.value {
          case UndoCommand => Undo();
          case RedoCommand => Redo();
          case UseTool(t) => SetTool(t);
        }
      }
    }
  }
  /** A fresh session on its first page: white, one ledger entry, the default pencil, no text input. */
  method FreshSession(now: nat) returns (session: Session)
    ensures fresh(session) && session.Started()
    ensures !session.textInputActive && session.currentTool == Pencil
    ensures session.canvas == White && session.Log() == History.Reset(White)
  {
    session := new Session([]);
    session.InitApp(now);
  }

  /** One pencil stroke at p (pointer down, then up): the surface before it is recorded, then one mark is painted. */
  method PencilStroke(session: Session, p: Point)
    requires session.Started() && !session.textInputActive && session.currentTool == Pencil
    modifies session
    ensures session.Started() && !session.textInputActive && session.currentTool == Pencil
    ensures session.Log() == History.Record(old(session.Log()), old(session.canvas))
    ensures |session.canvas| == |old(session.canvas)| + 1 && session.canvas[..|old(session.canvas)|] == old(session.canvas)
    ensures session.Store() == old(session.Store()) && session.saved == old(session.saved)
  {
    session.StartDrawing(p);
    session.StopDrawing(p);
  }

  /**
   * A fresh session with the default pencil, two strokes (at p, then at q), then undo and redo, as the
   * handlers run them. Each stroke records the surface before it is painted, so the undo removes
   * both strokes, and the redo brings back only the first.
   */
  method TwoStrokesThenUndoRedo(p: Point, q: Point) returns (afterStrokes: Snapshot, afterUndo: Snapshot, afterRedo: Snapshot)
    ensures |afterStrokes| == |White| + 2 && afterStrokes[..|White|] == White
    ensures afterUndo == White
    ensures afterRedo == afterStrokes[..|White| + 1] && afterRedo != afterStrokes
  {
    var session := FreshSession(0);
    PencilStroke(session, p);
    var oneStroke := session.canvas;
    assert session.Log() == History.Log([White, White], 1);
    PencilStroke(session, q);
    afterStrokes := session.canvas;
    assert session.Log() == History.Log([White, White, oneStroke], 2);
    assert afterStrokes[..|White| + 1] == oneStroke;
    assert afterStrokes[..|White|] == oneStroke[..|White|];
    session.Undo();
    afterUndo := session.canvas;
    session.Redo();
    afterRedo := session.canvas;
  }

  /**
   * Saving the current page under a name (overwriting if the name is taken) and then opening that name,
   * as the handlers run them. The saved record carries the open page's id, so the open selects an open
   * page, and the surface shows exactly what it showed at the save, as the only ledger entry.
   */
  method SaveThenOpenShowsSaved(session: Session, name: string, now: nat) returns (atSave: Snapshot, afterOpen: Snapshot)
    requires session.Started()
    modifies session
    ensures afterOpen == atSave && session.Log() == History.Reset(atSave)
  {
    atSave := session.canvas;
    ghost var before := session.saved;
    ghost var record := Pages.SaveCurrent(session.Store(), atSave).pages[session.currentPageIndex].(name := name);
    var saveNotice := session.SavePageToStorage(name, true);
    Library.SaveThenOpen(before, record, true);
    assert Library.Lookup(session.saved, name) == Some(record);
    assert session.pages[session.currentPageIndex].id == record.id;
    assert Library.IndexOfId(session.pages, record.id) >= 0;
    var openNotice := session.OpenPageFromStorage(name, now);
    afterOpen := session.canvas;
  }

  /**
   * Saving, one pencil stroke, then opening the saved name. The record holds the drawing as saved, but
   * the open finds its page still open and shows that page as it is now, stroke included.
   */
  method SaveStrokeThenOpen(session: Session, name: string, p: Point, now: nat) returns (atSave: Snapshot, afterOpen: Snapshot)
    requires session.Started() && !session.textInputActive && session.currentTool == Pencil
    modifies session
    ensures Library.Lookup(session.saved, name).Some? && Library.Lookup(session.saved, name).value.data == Some(atSave)
    ensures |afterOpen| == |atSave| + 1 && afterOpen[..|atSave|] == atSave && afterOpen != atSave
  {
    atSave := session.canvas;
    ghost var before := session.saved;
    ghost var record := Pages.SaveCurrent(session.Store(), atSave).pages[session.currentPageIndex].(name := name);
    var saveNotice := session.SavePageToStorage(name, true);
    Library.SaveThenOpen(before, record, true);
    PencilStroke(session, p);
    var afterStroke := session.canvas;
    assert Library.Lookup(session.saved, name) == Some(record);
    assert session.pages[session.currentPageIndex].id == record.id;
    assert Library.IndexOfId(session.pages, record.id) >= 0;
    var openNotice := session.OpenPageFromStorage(name, now);
    afterOpen := session.canvas;
    assert afterOpen == afterStroke;
  }
}

=== FILE: history.dfy ===
/**
 * The undo/redo ledger: the snapshots `drawingHistory` holds and the cursor `historyIndex`.
 * Recording truncates whatever lies past the cursor before appending; undo and redo only move the cursor.
 */
module History {
  import opened Canvas

  datatype Log = Log(entries: seq<Snapshot>, cursor: int)

  /** The cursor designates an entry. */
  predicate Valid(h: Log)
  {
    0 <= h.cursor < |h.entries|
  }

  /** The state before the first page exists: no entries, cursor -1. */
  const Empty := Log([], -1)

  predicate WellFormed(h: Log)
  {
    Valid(h) || h == Empty
  }

  /** The snapshot the cursor designates. */
  function Current(h: Log): Snapshot
    requires Valid(h)
  {
    h.entries[h.cursor]
  }

  /**
   * `saveState`: drop the redo future (the entries after the cursor), append s and move the cursor
   * onto it. Entries up to the cursor are kept, in order.
   */
  function Record(h: Log, s: Snapshot): (r: Log)
    requires WellFormed(h)
    ensures Valid(r) && r.cursor == |r.entries| - 1 && Current(r) == s
    ensures r.entries[..r.cursor] == h.entries[..h.cursor + 1]
  {
    var kept := if h.cursor < |h.entries| - 1 then h.entries[..h.cursor + 1] else h.entries;
    Log(kept + [s], h.cursor + 1)
  }

  /** `undo`: a no-op at index 0 (or before any entry); otherwise the cursor moves back one. Entries never change. */
  function Undo(h: Log): (r: Log)
    ensures r.entries == h.entries
    ensures h.cursor <= 0 ==> r == h
    ensures h.cursor > 0 ==> r.cursor == h.cursor - 1
    ensures WellFormed(h) ==> WellFormed(r)
  {
    if h.cursor <= 0 then h else h.(cursor := h.cursor - 1)
  }

  /** `redo`: a no-op at the last index; otherwise the cursor moves forward one. Entries never change. */
  function Redo(h: Log): (r: Log)
    ensures r.entries == h.entries
    ensures h.cursor >= |h.entries| - 1 ==> r == h
    ensures h.cursor < |h.entries| - 1 ==> r.cursor == h.cursor + 1
    ensures WellFormed(h) ==> WellFormed(r)
  {
    if h.cursor >= |h.entries| - 1 then h else h.(cursor := h.cursor + 1)
  }

  /** The single-entry ledger "clear" and page loading start from. */
  function Reset(s: Snapshot): (r: Log)
    ensures Valid(r) && |r.entries| == 1 && Current(r) == s
    ensures Undo(r) == r && Redo(r) == r
  {
    Log([s], 0)
  }

  /** Undo and redo are inverse moves wherever they are not no-ops: neither loses the redo future. */
  lemma UndoRedoInverse(h: Log)
    requires Valid(h)
    ensures h.cursor > 0 ==> Redo(Undo(h)) == h
    ensures h.cursor < |h.entries| - 1 ==> Undo(Redo(h)) == h
  {
  }

  /** After a record, one undo reaches the recorded snapshot's predecessor position and one redo comes back. */
  lemma UndoAfterRecord(h: Log, s: Snapshot)
    requires Valid(h)
    ensures Undo(Record(h, s)) == Log(h.entries[..h.cursor + 1] + [s], h.cursor)
    ensures Current(Undo(Record(h, s))) == Current(h)
    ensures Redo(Undo(Record(h, s))) == Record(h, s)
  {
    var r := Record(h, s);
    assert r.entries == h.entries[..h.cursor + 1] + [s];
  }

  /** Records s in turn, as a run of edits does. */
  function RecordAll(h: Log, ss: seq<Snapshot>): (r: Log)
    requires WellFormed(h)
    ensures WellFormed(r) && (ss != [] ==> Valid(r))
    decreases |ss|
  {
    if ss == [] then h else RecordAll(Record(h, ss[0]), ss[1..])
  }

  /** Undoes n times. */
  function UndoTimes(h: Log, n: nat): Log
    decreases n
  {
    if n == 0 then h else UndoTimes(Undo(h), n - 1)
  }

  /** Records made with the cursor at the end only append. */
  lemma {:induction false} RecordAllAtEnd(h: Log, ss: seq<Snapshot>)
    requires Valid(h) && h.cursor == |h.entries| - 1
    ensures RecordAll(h, ss) == Log(h.entries + ss, h.cursor + |ss|)
    decreases |ss|
  {
    if ss != [] {
      var h' := Record(h, ss[0]);
      assert h'.entries == h.entries + [ss[0]];
      RecordAllAtEnd(h', ss[1..]);
      assert (h.entries + [ss[0]]) + ss[1..] == h.entries + ss;
    }
  }

  /** n undos from a cursor at least n move it back by exactly n and change no entry. */
  lemma {:induction false} UndoTimesMovesBack(h: Log, n: nat)
    requires Valid(h) && n <= h.cursor
    ensures UndoTimes(h, n) == h.(cursor := h.cursor - n)
    decreases n
  {
    if n > 0 {
      UndoTimesMovesBack(Undo(h), n - 1);
    }
  }

  /**
   * From a single-entry ledger, N records put the cursor at N, and N undos bring it back
   * to the initial snapshot with every recorded entry still available for redo.
   */
  lemma RecordsThenUndos(s0: Snapshot, ss: seq<Snapshot>)
    ensures RecordAll(Reset(s0), ss).cursor == |ss|
    ensures UndoTimes(RecordAll(Reset(s0), ss), |ss|) == Log([s0] + ss, 0)
    ensures Current(UndoTimes(RecordAll(Reset(s0), ss), |ss|)) == s0
  {
    RecordAllAtEnd(Reset(s0), ss);
    UndoTimesMovesBack(RecordAll(Reset(s0), ss), |ss|);
  }

  /** Record A, B, C, undo, undo, record D leaves [A, D] with the cursor on D. */
  lemma BranchDiscardsRedo(a: Snapshot, b: Snapshot, c: Snapshot, d: Snapshot)
    ensures Record(Undo(Undo(RecordAll(Empty, [a, b, c]))), d) == Log([a, d], 1)
  {
    var h := RecordAll(Empty, [a, b, c]);
    assert Record(Empty, a) == Log([a], 0);
    RecordAllAtEnd(Log([a], 0), [b, c]);
    assert h == Log([a, b, c], 2);
    assert [a, b, c][..1] == [a];
  }
  /** The ledger is in step with a surface when its current entry is what the surface shows. */
  predicate InStep(h: Log, canvas: Snapshot)
  {
    Valid(h) && Current(h) == canvas
  }

  /**
   * Edits recorded as `startDrawing` and `finalizeText` record them: the surface BEFORE the edit.
   * From a fresh ledger on s0, edits s0 -> s1 -> s2 leave the ledger [s0, s0, s1] while the surface
   * shows s2. The ledger lags one edit behind; one undo shows s0, skipping s1; and redo brings back
   * s1 but never s2. Already after the first edit, undo and redo show s0: that edit is lost.
   */
  lemma PreEditRecordingSkips(s0: Snapshot, s1: Snapshot, s2: Snapshot)
    ensures Current(Redo(Undo(Record(Reset(s0), s0)))) == s0
    ensures Record(Record(Reset(s0), s0), s1) == Log([s0, s0, s1], 2)
    ensures s2 != s1 ==> !InStep(Record(Record(Reset(s0), s0), s1), s2)
    ensures Current(Undo(Record(Record(Reset(s0), s0), s1))) == s0
    ensures Current(Redo(Undo(Record(Record(Reset(s0), s0), s1)))) == s1
    ensures s2 != s0 && s2 != s1 ==> s2 !in Redo(Undo(Record(Record(Reset(s0), s0), s1))).entries
  {
    var h1 := Record(Reset(s0), s0);
    assert h1 == Log([s0, s0], 1);
    var h2 := Record(h1, s1);
    assert h2.entries == [s0, s0] + [s1];
  }

  /**
   * An edit recorded AFTER it is painted keeps the ledger in step with the surface: one undo then
   * shows the surface as it was before the edit, and redo restores the edit.
   */
  lemma PostEditRecordingInStep(h: Log, before: Snapshot, after: Snapshot)
    requires InStep(h, before)
    ensures InStep(Record(h, after), after)
    ensures InStep(Undo(Record(h, after)), before)
    ensures Redo(Undo(Record(h, after))) == Record(h, after)
  {
    UndoAfterRecord(h, after);
  }

  /**
   * Edits recorded after they are painted, from a fresh ledger on s0 through ss[0], ..., ss[n-1]:
   * the ledger ends in step with the last surface, k undos show the surface as it was k edits ago,
   * and a redo from there restores the edit undone last.
   */
  lemma PostEditUndoOneAtATime(s0: Snapshot, ss: seq<Snapshot>, k: nat)
    requires k <= |ss|
    ensures InStep(RecordAll(Reset(s0), ss), ([s0] + ss)[|ss|])
    ensures InStep(UndoTimes(RecordAll(Reset(s0), ss), k), ([s0] + ss)[|ss| - k])
    ensures 0 < k ==> InStep(Redo(UndoTimes(RecordAll(Reset(s0), ss), k)), ([s0] + ss)[|ss| - k + 1])
  {
    RecordAllAtEnd(Reset(s0), ss);
    UndoTimesMovesBack(RecordAll(Reset(s0), ss), k);
  }
}

=== FILE: keys.dfy ===
/** The keyboard shortcuts: Ctrl/Cmd+Z and +Y, and one letter per tool. */
module Keys {
  import opened Wrappers
  import opened Style

  datatype Command = UndoCommand | RedoCommand | UseTool(tool: Tool)

  /** `toLowerCase` on one character, for the letters the bindings look at. */
  function LowerChar(c: char): char
  {
    if 'A' <= c <= 'Z' then (c as int + 32) as char else c
  }

  function Lower(s: string): (r: string)
    ensures |r| == |s| && forall i :: 0 <= i < |s| ==> r[i] == LowerChar(s[i])
  {
    seq(|s|, i requires 0 <= i < |s| => LowerChar(s[i]))
  }

  /** The letter shortcut for a tool. */
  function ToolKey(t: Tool): string
  {
    match t
    case Pencil => "p"
    case Brush => "b"
    case Eraser => "e"
    case Text => "t"
    case Shape => "s"
  }

  /** The command a keydown triggers; `modifier` is ctrlKey or metaKey. */
  function Binding(key: string, modifier: bool): (r: Option<Command>)
    ensures r == Some(UndoCommand) <==> modifier && key == "z"
    ensures r == Some(RedoCommand) <==> modifier && key == "y"
    ensures forall t :: r == Some(UseTool(t)) <==> !modifier && Lower(key) == ToolKey(t)
  {
    if modifier then
      if key == "z" then Some(UndoCommand)
      else if key == "y" then Some(RedoCommand)
      else None
    else
      var k := Lower(key);
      if k == "p" then Some(UseTool(Pencil))
      else if k == "b" then Some(UseTool(Brush))
      else if k == "e" then Some(UseTool(Eraser))
      else if k == "t" then Some(UseTool(Text))
      else if k == "s" then Some(UseTool(Shape))
      else None
  }

  /** Tool letters work in either case; the modified shortcuts do not (Ctrl+Shift+Z does nothing). */
  lemma ToolKeysIgnoreCase(key: string)
    ensures Binding(Lower(key), false) == Binding(key, false)
    ensures Binding("Z", true).None? && Binding("Y", true).None?
  {
    assert Lower(Lower(key)) == Lower(key);
  }
}

=== FILE: library.dfy ===
/**
 * The saved-drawing collection kept under the 'paintingAppPages' key: read whole, changed, written
 * back whole. Records are looked up by name for saving and opening, and by id against the open pages.
 */
module Library {
  import opened Wrappers
  import opened Pages

  /** `findIndex`: the first position whose element matches, or -1. */
  function FirstMatch<T>(s: seq<T>, matches: T -> bool): (k: int)
    ensures -1 <= k < |s|
    ensures 0 <= k ==> matches(s[k])
    ensures forall j :: 0 <= j < |s| && (k < 0 || j < k) ==> !matches(s[j])
  {
    if s == [] then -1
    else if matches(s[0]) then 0
    else
      var k := FirstMatch(s[1..], matches);
      if k < 0 then -1 else k + 1
  }

  /** The position of the first record with this name, or -1. */
  function IndexOfName(saved: seq<Page>, name: string): int
  {
    FirstMatch(saved, (p: Page) => p.name == name)
  }

  /** The position of the first open page with this id, or -1. */
  function IndexOfId(pages: seq<Page>, id: nat): int
  {
    FirstMatch(pages, (p: Page) => p.id == id)
  }

  /** `find` by name: the first record so named, or None when no record has the name. */
  function Lookup(saved: seq<Page>, name: string): (r: Option<Page>)
    ensures r.Some? ==> r.value.name == name
    ensures r.Some? ==> exists k :: 0 <= k < |saved| && saved[k] == r.value && forall j :: 0 <= j < k ==> saved[j].name != name
    ensures r.None? <==> forall p :: p in saved ==> p.name != name
  {
    var k := IndexOfName(saved, name);
    if k < 0 then None else Some(saved[k])
  }

  /**
   * The collection `savePageToStorage` writes back, or None when the name is taken and the user
   * declines to overwrite (then nothing is written). An overwrite replaces the first record of that
   * name in place; a new name is appended.
   */
  function SaveRecord(saved: seq<Page>, record: Page, confirmed: bool): (r: Option<seq<Page>>)
    ensures r.None? <==> !confirmed && Lookup(saved, record.name).Some?
    ensures r.Some? && Lookup(saved, record.name).Some? ==>
      |r.value| == |saved| &&
      exists k :: 0 <= k < |saved| && saved[k].name == record.name && (forall j :: 0 <= j < k ==> saved[j].name != record.name)
        && r.value[k] == record && forall j :: 0 <= j < |saved| && j != k ==> r.value[j] == saved[j]
    ensures r.Some? && Lookup(saved, record.name).None? ==> r.value == saved + [record]
  {
    var k := IndexOfName(saved, record.name);
    if k >= 0 then
      if confirmed then Some(saved[k := record]) else None
    else
      Some(saved + [record])
  }

  /** Two sequences whose elements match at the same positions have the same first match. */
  lemma {:induction false} FirstMatchAgree<T>(a: seq<T>, b: seq<T>, matches: T -> bool)
    requires |a| == |b|
    requires forall j :: 0 <= j < |a| ==> matches(a[j]) == matches(b[j])
    ensures FirstMatch(a, matches) == FirstMatch(b, matches)
  {
    var ka, kb := FirstMatch(a, matches), FirstMatch(b, matches);
    if ka >= 0 { assert matches(b[ka]); }
    if kb >= 0 { assert matches(a[kb]); }
  }

  /** Appending after the last match, or appending a non-match, does not move the first match. */
  lemma {:induction false} FirstMatchAppend<T>(s: seq<T>, x: T, matches: T -> bool)
    ensures FirstMatch(s, matches) >= 0 ==> FirstMatch(s + [x], matches) == FirstMatch(s, matches)
    ensures FirstMatch(s, matches) < 0 ==> FirstMatch(s + [x], matches) == if matches(x) then |s| else -1
  {
    var t := s + [x];
    forall j | 0 <= j < |s| ensures t[j] == s[j] { }
    assert t[|s|] == x;
  }

  /** Saving and then opening by the same name yields exactly the record that was saved. */
  lemma SaveThenOpen(saved: seq<Page>, record: Page, confirmed: bool)
    requires SaveRecord(saved, record, confirmed).Some?
    ensures Lookup(SaveRecord(saved, record, confirmed).value, record.name) == Some(record)
  {
    var s' := SaveRecord(saved, record, confirmed).value;
    var named := (p: Page) => p.name == record.name;
    var k := IndexOfName(saved, record.name);
    if k >= 0 {
      assert s'[k] == record;
      forall j | 0 <= j < k ensures !named(s'[j]) { assert s'[j] == saved[j]; }
      var k' := FirstMatch(s', named);
      assert k' == k;
    } else {
      FirstMatchAppend(saved, record, named);
    }
  }

  /** A save touches no other name: opening any other name finds what it found before. */
  lemma SaveKeepsOtherNames(saved: seq<Page>, record: Page, confirmed: bool, name: string)
    requires SaveRecord(saved, record, confirmed).Some? && name != record.name
    ensures Lookup(SaveRecord(saved, record, confirmed).value, name) == Lookup(saved, name)
  {
    var s' := SaveRecord(saved, record, confirmed).value;
    var named := (p: Page) => p.name == name;
    var k := IndexOfName(saved, record.name);
    if k >= 0 {
      FirstMatchAgree(saved, s', named);
      var j := FirstMatch(saved, named);
      if j >= 0 { assert j != k; }
    } else {
      FirstMatchAppend(saved, record, named);
      var j := FirstMatch(saved, named);
      if j >= 0 { assert s'[j] == saved[j]; }
    }
  }

  /** No two records share a name. */
  ghost predicate DistinctNames(saved: seq<Page>)
  {
    forall i, j :: 0 <= i < j < |saved| ==> saved[i].name != saved[j].name
  }

  /** Because a taken name is overwritten rather than added, saving keeps names distinct. */
  lemma SaveKeepsNamesDistinct(saved: seq<Page>, record: Page, confirmed: bool)
    requires DistinctNames(saved) && SaveRecord(saved, record, confirmed).Some?
    ensures DistinctNames(SaveRecord(saved, record, confirmed).value)
  {
    var s' := SaveRecord(saved, record, confirmed).value;
    var k := IndexOfName(saved, record.name);
    if k >= 0 {
      forall i, j | 0 <= i < j < |s'| ensures s'[i].name != s'[j].name {
        if i == k { assert saved[k].name == record.name; }
        if j == k { assert saved[k].name == record.name; }
      }
    } else {
      forall i, j | 0 <= i < j < |s'| ensures s'[i].name != s'[j].name {
        if j == |saved| {
          assert saved[i] in saved;
        }
      }
    }
  }
}

=== FILE: pages.dfy ===
/**
 * The page store: the ordered list `pages` of open drawings and the index `currentPageIndex`
 * of the one on the canvas.
 */
module Pages {
  import opened Wrappers
  import opened Canvas
  import Strings

  /** An open drawing: a time-derived id, a display name, and its stored snapshot and preview (null until first saved). */
  datatype Page = Page(id: nat, name: string, data: Option<Snapshot>, thumbnail: Option<Thumbnail>)

  datatype Store = Store(pages: seq<Page>, current: int)

  /** The current index designates a page, so the list is not empty. */
  predicate Valid(st: Store)
  {
    0 <= st.current < |st.pages|
  }

  /** Valid, or the state before the first page is created. */
  predicate WellFormed(st: Store)
  {
    Valid(st) || (st.pages == [] && st.current == -1)
  }

  /** The name a new page gets when `count` pages are already open. */
  function NewPageName(count: nat): string
  {
    "Drawing " + Strings.DecimalString(count + 1)
  }

  /** A new page's name is "Drawing " followed by the digits of the new page count, with no leading zero. */
  lemma NewPageNameCounts(count: nat)
    ensures |NewPageName(count)| > 8 && NewPageName(count)[..8] == "Drawing "
    ensures forall k :: 8 <= k < |NewPageName(count)| ==> '0' <= NewPageName(count)[k] <= '9'
    ensures NewPageName(count)[8] != '0'
    ensures Strings.DigitsValue(NewPageName(count)[8..]) == count + 1
  {
    var digits := Strings.DecimalString(count + 1);
    assert NewPageName(count)[8..] == digits;
  }

  /** The page `createNewPage` appends: the clock reading as id, no data and no thumbnail. */
  function Blank(now: nat, count: nat): Page
  {
    Page(now, NewPageName(count), None, None)
  }

  /** A page after the canvas is stored into it. */
  function Captured(p: Page, canvas: Snapshot): (q: Page)
    ensures q.id == p.id && q.name == p.name
    ensures q.data == Some(canvas) && q.thumbnail == Some(Jpeg(canvas))
  {
    p.(data := Some(canvas), thumbnail := Some(Jpeg(canvas)))
  }

  /**
   * `saveCurrentPage`: with a current page, its data and thumbnail become the canvas and no other
   * page changes; with none (index -1), nothing changes.
   */
  function SaveCurrent(st: Store, canvas: Snapshot): (r: Store)
    ensures r.current == st.current && |r.pages| == |st.pages|
    ensures forall i :: 0 <= i < |st.pages| && i != st.current ==> r.pages[i] == st.pages[i]
    ensures Valid(st) ==> r.pages[st.current] == Captured(st.pages[st.current], canvas)
    ensures !Valid(st) ==> r == st
  {
    if Valid(st) then st.(pages := st.pages[st.current := Captured(st.pages[st.current], canvas)]) else st
  }

  /**
   * `createNewPage`: the page being left keeps the canvas, exactly one blank page named after the new
   * count is appended, it becomes current, and every other page is unchanged.
   */
  function Create(st: Store, canvas: Snapshot, now: nat): (r: Store)
    ensures Valid(r) && |r.pages| == |st.pages| + 1 && r.current == |st.pages|
    ensures forall i :: 0 <= i < |st.pages| && i != st.current ==> r.pages[i] == st.pages[i]
    ensures Valid(st) ==> r.pages[st.current] == Captured(st.pages[st.current], canvas)
    ensures r.pages[r.current] == Blank(now, |st.pages|)
    ensures r.pages[r.current].data.None? && r.pages[r.current].name == "Drawing " + Strings.DecimalString(|st.pages| + 1)
  {
    Store(SaveCurrent(st, canvas).pages + [Blank(now, |st.pages|)], |st.pages|)
  }

  /**
   * The page side of `loadPage(index)`: an index outside the list changes nothing at all;
   * otherwise the page being left keeps the canvas and the index becomes current.
   */
  function Select(st: Store, index: int, canvas: Snapshot): (r: Store)
    ensures !(0 <= index < |st.pages|) ==> r == st
    ensures 0 <= index < |st.pages| ==> Valid(r) && r.current == index && r.pages == SaveCurrent(st, canvas).pages
  {
    if index < 0 || index >= |st.pages| then st else Store(SaveCurrent(st, canvas).pages, index)
  }

  /** Switching to another page loads that page as it was stored: its own data is untouched. */
  lemma SelectKeepsTarget(st: Store, index: int, canvas: Snapshot)
    requires Valid(st) && 0 <= index < |st.pages| && index != st.current
    ensures Select(st, index, canvas).pages[index] == st.pages[index]
    ensures Select(st, index, canvas).pages[st.current].data == Some(canvas)
  {
  }

  /** `pages.splice(i, 1)`. */
  function Remove(pages: seq<Page>, i: nat): (r: seq<Page>)
    requires i < |pages|
    ensures |r| == |pages| - 1
    ensures forall j :: 0 <= j < i ==> r[j] == pages[j]
    ensures forall j :: i <= j < |r| ==> r[j] == pages[j + 1]
  {
    pages[..i] + pages[i + 1..]
  }

  /** `Math.min(currentPageIndex, pages.length - 1)` after the splice. */
  function IndexAfterDelete(st: Store): int
  {
    if st.current < |st.pages| - 2 then st.current else |st.pages| - 2
  }

  /**
   * `deleteCurrentPage` as written (confirmed, more than one page): splice the current page out,
   * clamp the index, then `loadPage`, whose `saveCurrentPage` runs after the splice and so writes
   * the deleted page's canvas into the page that moved into its place.
   */
  function DeleteAsWritten(st: Store, canvas: Snapshot): (r: Store)
    requires Valid(st) && |st.pages| > 1
    ensures Valid(r) && |r.pages| == |st.pages| - 1 && r.current == IndexAfterDelete(st)
  {
    var rest := Remove(st.pages, st.current);
    var k := if st.current < |rest| - 1 then st.current else |rest| - 1;
    Select(Store(rest, k), k, canvas)
  }

  /**
   * Deleting the current page as intended: exactly that page goes, the others keep their order
   * and contents, and the index becomes min(old index, n - 2).
   */
  function Delete(st: Store): (r: Store)
    requires Valid(st) && |st.pages| > 1
    ensures Valid(r) && |r.pages| == |st.pages| - 1 && r.current == IndexAfterDelete(st)
    ensures forall j :: 0 <= j < st.current ==> r.pages[j] == st.pages[j]
    ensures forall j :: st.current <= j < |r.pages| ==> r.pages[j] == st.pages[j + 1]
  {
    Store(Remove(st.pages, st.current), IndexAfterDelete(st))
  }

  /** The as-written delete is the intended one except that the page now current holds the deleted canvas. */
  lemma DeleteAsWrittenOverwrites(st: Store, canvas: Snapshot)
    requires Valid(st) && |st.pages| > 1
    ensures DeleteAsWritten(st, canvas).current == Delete(st).current
    ensures DeleteAsWritten(st, canvas).pages
      == Delete(st).pages[Delete(st).current := Captured(Delete(st).pages[Delete(st).current], canvas)]
  {
  }

  /**
   * Two pages holding different drawings a and b, the first one current and showing a:
   * deleting it leaves one page holding a, where the intended delete leaves b.
   */
  lemma DeleteLosesNeighbour()
    ensures var a: Snapshot := [Cover("#000000")];
      var b := White;
      var st := Store([Page(1, "Drawing 1", Some(a), None), Page(2, "Drawing 2", Some(b), None)], 0);
      DeleteAsWritten(st, a).pages[0].data == Some(a) && Delete(st).pages[0].data == Some(b) && a != b
  {
    var a: Snapshot := [Cover("#000000")];
    var st := Store([Page(1, "Drawing 1", Some(a), None), Page(2, "Drawing 2", Some(White), None)], 0);
    assert Remove(st.pages, 0) == [st.pages[1]];
    assert a[0] != White[0];
  }

  /**
   * `openPageFromStorage` for a record already open at index k, as written: the index is set to k
   * before `loadPage`, so the canvas is stored into page k, over that page's own drawing, and the page
   * being left is not stored at all.
   */
  function OpenExistingAsWritten(st: Store, k: int, canvas: Snapshot): (r: Store)
    requires Valid(st) && 0 <= k < |st.pages|
    ensures Valid(r) && r.current == k && |r.pages| == |st.pages|
    ensures r.pages[k] == Captured(st.pages[k], canvas)
    ensures forall i :: 0 <= i < |st.pages| && i != k ==> r.pages[i] == st.pages[i]
  {
    Select(Store(st.pages, k), k, canvas)
  }

  /**
   * Two pages holding a and b, the first one current: opening the saved record of the second
   * as written stores a into the second page, where switching pages as intended keeps b there.
   */
  lemma OpenExistingLosesTarget()
    ensures var a: Snapshot := [Cover("#000000")];
      var b := White;
      var st := Store([Page(1, "Drawing 1", Some(a), None), Page(2, "Drawing 2", Some(b), None)], 0);
      OpenExistingAsWritten(st, 1, a).pages[1].data == Some(a) && Select(st, 1, a).pages[1].data == Some(b) && a != b
  {
    var a: Snapshot := [Cover("#000000")];
    assert a[0] != White[0];
  }
}

=== FILE: shapes.dfy ===
/** The shape library: each shape kind as the primitives it draws between two corner points. */
module Shapes {
  import opened Canvas

  datatype ShapeKind = Rectangle | Circle | Triangle | Line | Arrow | Star

  /** An axis-aligned box with one corner at p1 and the opposite corner at p2. */
  function RectangleShape(p1: Point, p2: Point, fill: bool): (r: seq<Prim>)
    ensures |r| == 1 && r[0].Rect? && r[0].corner == p1 && r[0].filled == fill
    ensures r[0].corner.x + r[0].width == p2.x && r[0].corner.y + r[0].height == p2.y
  {
    [Rect(p1, p2.x - p1.x, p2.y - p1.y, fill)]
  }

  /** A circle centred on p1 that passes through p2. */
  function CircleShape(p1: Point, p2: Point, fill: bool): (r: seq<Prim>)
    ensures |r| == 1 && r[0].Arc? && r[0].center == p1 && r[0].filled == fill
    ensures SqDist(r[0].center, p2) == r[0].radiusSquared
  {
    [Arc(p1, SqDist(p1, p2), fill)]
  }

  /**
   * An isosceles triangle: apex p1, one base vertex p2, the other base vertex the mirror
   * image of p2 in the vertical line through p1.
   */
  function TriangleShape(p1: Point, p2: Point, fill: bool): (r: seq<Prim>)
    ensures |r| == 1 && r[0].Path? && r[0].closed && r[0].filled == fill && |r[0].points| == 3
    ensures r[0].points[0] == p1 && r[0].points[1] == p2
    ensures r[0].points[2].y == p2.y && r[0].points[1].x + r[0].points[2].x == 2.0 * p1.x
    ensures SqDist(p1, r[0].points[1]) == SqDist(p1, r[0].points[2])
  {
    [Path([p1, p2, Point(p1.x * 2.0 - p2.x, p2.y)], true, fill)]
  }

  /** A straight stroke from p1 to p2; there is no fill flag. */
  function LineShape(p1: Point, p2: Point): (r: seq<Prim>)
    ensures |r| == 1 && r[0].Path? && r[0].points == [p1, p2] && !r[0].closed && !Fills(r[0])
  {
    [Path([p1, p2], false, false)]
  }

  /** A line from p1 to p2 with an arrowhead at p2. */
  function ArrowShape(p1: Point, p2: Point): (r: seq<Prim>)
    ensures |r| == 2 && r[..1] == LineShape(p1, p2) && r[1] == ArrowHead(p2, p1)
  {
    LineShape(p1, p2) + [ArrowHead(p2, p1)]
  }

  /** A star centred on p1 whose outer points lie at the distance of p2. */
  function StarShape(p1: Point, p2: Point, fill: bool): (r: seq<Prim>)
    ensures |r| == 1 && r[0].StarOutline? && r[0].center == p1 && r[0].filled == fill
    ensures r[0].outerRadiusSquared == SqDist(p1, p2)
  {
    [StarOutline(p1, SqDist(p1, p2), fill)]
  }

  /** The shape function of a kind, called with the two corners and the fill flag. */
  function ShapeCommands(kind: ShapeKind, p1: Point, p2: Point, fill: bool): seq<Prim>
  {
    match kind
    case Rectangle => RectangleShape(p1, p2, fill)
    case Circle => CircleShape(p1, p2, fill)
    case Triangle => TriangleShape(p1, p2, fill)
    case Line => LineShape(p1, p2)
    case Arrow => ArrowShape(p1, p2)
    case Star => StarShape(p1, p2, fill)
  }

  /** A preview (fill flag false) only ever outlines, whatever the shape. */
  lemma PreviewNeverFills(kind: ShapeKind, p1: Point, p2: Point)
    ensures forall i :: 0 <= i < |ShapeCommands(kind, p1, p2, false)| ==> !Fills(ShapeCommands(kind, p1, p2, false)[i])
  {
  }

  /** Lines and arrows are strokes whatever the fill flag says; every other shape fills exactly when asked to. */
  lemma FillFlag(kind: ShapeKind, p1: Point, p2: Point, fill: bool)
    ensures kind.Line? || kind.Arrow? ==>
      ShapeCommands(kind, p1, p2, fill) == ShapeCommands(kind, p1, p2, false)
      && forall i :: 0 <= i < |ShapeCommands(kind, p1, p2, fill)| ==> !Fills(ShapeCommands(kind, p1, p2, fill)[i])
    ensures !(kind.Line? || kind.Arrow?) ==>
      forall i :: 0 <= i < |ShapeCommands(kind, p1, p2, fill)| ==> Fills(ShapeCommands(kind, p1, p2, fill)[i]) == fill
  {
  }

  /** A filled triangle from (0,0) to (4,6) has vertices (0,0), (4,6) and (-4,6). */
  lemma TriangleExample()
    ensures ShapeCommands(Triangle, Point(0.0, 0.0), Point(4.0, 6.0), true)
      == [Path([Point(0.0, 0.0), Point(4.0, 6.0), Point(-4.0, 6.0)], true, true)]
  {
  }

  /** A circle dragged from (10,10) to (10,20) is centred at (10,10) with radius 10. */
  lemma CircleExample()
    ensures ShapeCommands(Circle, Point(10.0, 10.0), Point(10.0, 20.0), false)
      == [Arc(Point(10.0, 10.0), 10.0 * 10.0, false)]
  {
  }
}

=== FILE: strings.dfy ===
/** The few string operations the editor relies on: `trim`, decimal rendering and `parseInt` of a pixel length. */
module Strings {
  /** The characters `String.prototype.trim` strips: ECMAScript WhiteSpace and LineTerminator. */
  predicate IsSpace(c: char)
  {
    c == ' ' || c == '\t' || c == '\n' || c == '\r' || c == '\U{000B}' || c == '\U{000C}'
    || c == '\U{00A0}' || c == '\U{1680}' || ('\U{2000}' <= c <= '\U{200A}')
    || c == '\U{2028}' || c == '\U{2029}' || c == '\U{202F}' || c == '\U{205F}'
    || c == '\U{3000}' || c == '\U{FEFF}'
  }

  /** How many whitespace characters open s. */
  function LeadingSpaces(s: string): (n: nat)
    ensures n <= |s|
    ensures forall k :: 0 <= k < n ==> IsSpace(s[k])
    ensures n < |s| ==> !IsSpace(s[n])
  {
    if s == [] || !IsSpace(s[0]) then 0 else 1 + LeadingSpaces(s[1..])
  }

  /** How many whitespace characters close s. */
  function TrailingSpaces(s: string): (n: nat)
    ensures n <= |s|
    ensures forall k :: |s| - n <= k < |s| ==> IsSpace(s[k])
    ensures n < |s| ==> !IsSpace(s[|s| - 1 - n])
  {
    if s == [] || !IsSpace(s[|s| - 1]) then 0 else 1 + TrailingSpaces(s[..|s| - 1])
  }

  /**
   * `s.trim()`: the longest run of s that starts and ends with a non-space character;
   * everything dropped is whitespace, and the result is empty exactly when s is all whitespace.
   */
  function Trim(s: string): (r: string)
    ensures r == [] <==> forall k :: 0 <= k < |s| ==> IsSpace(s[k])
    ensures r != [] ==> !IsSpace(r[0]) && !IsSpace(r[|r| - 1])
    ensures LeadingSpaces(s) + |r| <= |s| && r == s[LeadingSpaces(s)..LeadingSpaces(s) + |r|]
    ensures forall k :: 0 <= k < |s| && !(LeadingSpaces(s) <= k < LeadingSpaces(s) + |r|) ==> IsSpace(s[k])
  {
    var lead := LeadingSpaces(s);
    var rest := s[lead..];
    rest[..|rest| - TrailingSpaces(rest)]
  }

  /** Trimming twice is trimming once. */
  lemma TrimIdempotent(s: string)
    ensures Trim(Trim(s)) == Trim(s)
  {
    var r := Trim(s);
    if r != [] {
      assert LeadingSpaces(r) == 0;
      assert TrailingSpaces(r) == 0;
    }
  }

  /** The digit character for 0..9. */
  function Digit(d: nat): (c: char)
    requires d < 10
    ensures '0' <= c <= '9'
  {
    ('0' as int + d) as char
  }

  /** The number a string of decimal digits denotes, most significant digit first. */
  function DigitsValue(s: string): nat
    requires forall k :: 0 <= k < |s| ==> '0' <= s[k] <= '9'
  {
    if s == [] then 0 else 10 * DigitsValue(s[..|s| - 1]) + (s[|s| - 1] as int - '0' as int)
  }

  /** The decimal rendering of a natural number, as a template literal gives it: it spells n. */
  function DecimalString(n: nat): (r: string)
    ensures |r| >= 1
    ensures forall k :: 0 <= k < |r| ==> '0' <= r[k] <= '9'
    ensures n > 0 ==> r[0] != '0'
    ensures DigitsValue(r) == n
  {
    if n < 10 then [Digit(n)]
    else
      var prefix := DecimalString(n / 10);
      var r := prefix + [Digit(n % 10)];
      assert r[..|r| - 1] == prefix;
      r
  }

  /**
   * `parseInt(x + "px")`: the digits before the decimal point, with the sign of x,
   * that is x truncated toward zero.
   */
  function ParsePixels(x: real): (n: int)
    ensures 0.0 <= x ==> n as real <= x < n as real + 1.0
    ensures x < 0.0 ==> n as real - 1.0 < x <= n as real
  {
    if x >= 0.0 then x.Floor else -((-x).Floor)
  }
}

=== FILE: style.dfy ===
/** Tools and stroke settings: the configuration `setLineStyle` copies into the drawing context. */
module Style {
  import opened Wrappers
  import opened Canvas

  datatype Tool = Pencil | Brush | Eraser | Text | Shape

  /** The tools that draw a freehand stroke while the pointer moves. */
  predicate Freehand(t: Tool)
  {
    t.Pencil? || t.Brush? || t.Eraser?
  }

  /** The paint-style choices of the style selector. */
  datatype PaintStyle = Solid | Dashed | Dotted | Double | Groove | Ridge

  /** The `setLineDash` argument for a paint style; None where the style leaves the dash alone. */
  function DashPattern(style: PaintStyle): Option<seq<real>>
  {
    match style
    case Solid => Some([])
    case Dashed => Some([10.0, 5.0])
    case Dotted => Some([2.0, 3.0])
    case Double => None
    case Groove => Some([10.0, 3.0, 2.0, 3.0])
    case Ridge => Some([10.0, 3.0, 2.0, 3.0, 2.0, 3.0])
  }

  /**
   * The pen `setLineStyle` leaves in a context whose pen was `current`.
   * The eraser strokes in the background colour; shapes fill in the primary colour;
   * 'double' halves the width and keeps whatever dash the context already had;
   * every other style keeps the full width and sets an even-length pattern of positive
   * lengths, empty exactly for 'solid'.
   */
  function LineStyle(tool: Tool, color: string, brushSize: real, style: PaintStyle, current: Pen): (p: Pen)
    ensures p.stroke == (if tool.Eraser? then Background else color) && p.fill == color
    ensures style.Double? ==> 2.0 * p.width == brushSize && p.dash == current.dash
    ensures !style.Double? ==> p.width == brushSize && |p.dash| % 2 == 0 && (p.dash == [] <==> style.Solid?)
    ensures !style.Double? ==> forall i :: 0 <= i < |p.dash| ==> p.dash[i] > 0.0
  {
    var width := if style.Double? then brushSize / 2.0 else brushSize;
    var dash := match DashPattern(style) case Some(d) => d case None => current.dash;
    Pen(if tool.Eraser? then Background else color, color, width, dash)
  }

  /** Only 'double' lets the previous context state show through; every other style fully determines the pen. */
  lemma OnlyDoubleRemembersDash(tool: Tool, color: string, brushSize: real, style: PaintStyle, a: Pen, b: Pen)
    ensures !style.Double? ==> LineStyle(tool, color, brushSize, style, a) == LineStyle(tool, color, brushSize, style, b)
    ensures style.Double? ==> (LineStyle(tool, color, brushSize, style, a) == LineStyle(tool, color, brushSize, style, b) <==> a.dash == b.dash)
  {
  }

  /** The eraser paints exactly the colour a cleared surface is filled with. */
  lemma EraserPaintsBackground(color: string, brushSize: real, style: PaintStyle, current: Pen)
    ensures LineStyle(Eraser, color, brushSize, style, current).stroke == White[0].color
  {
  }
}

=== FILE: wrappers.dfy ===
/** Optional values, standing in for JavaScript's null/undefined. */
module Wrappers {
  datatype Option<+T> = None | Some(value: T)
}
